=== FILE: README.md ===
# Service-worker key-value store with per-record sign-in

A Dafny model of the `fetch` handler of `testworker.js`: a multi-tenant
key-value store kept in IndexedDB. A registry entry names a developer
object store, derived from the entry's `developerKey`; a store is reachable
from every registry id whose `developerKey` derives its name, and anyone may
add such an entry. User records in a store carry an `authenticated` flag:
sign-in sets it, sign-out clears it, and CREATEUSER overwrites a record with
the flag set.

The database is a pure value `State`. It holds the registry (the fixed
`chatStore` object store, from entry id to the developer's data plus the
derived `storeName`) and the developer stores (from store name to a map from
record key to `Record`). Each command is a function from a state and a
request to a new state and a response. `None` stands for a field missing
from the JSON body (`undefined`) and for an absent `Developer-Key` header or
`key` URL parameter (`null`); a string is "falsy" when it is missing or
empty (`Types.Truthy`).
A record is `email`, `password`, `authenticated` and an opaque `rest`, so
that "only the flag changed" can be stated.

Modules:

- `Types` (types.dfy): requests' data, records, registry entries, the
  database, failures.
- `Namespaces` (namespaces.dfy): registry ids, store-name derivation,
  create-if-absent of stores (`openDB`), registration (`setDeveloper`),
  developer-key validation (`validateDeveloperKey`) and the invariant
  `Valid`: every registry entry names the store its `developerKey` derives,
  and that store exists.
- `Records` (records.dfy): the upsert `createUser` relies on, `createUser`,
  `signIn`, `signOut` and `removeDataFromDB`.
- `Dispatch` (dispatch.dfy): the handler. It intercepts only POSTs to a
  path containing `/worker`. It runs SETDEV without validation and validates
  the developer key before every other action. It routes by action, takes
  the record key from the URL for SIGNOUT/GETAUTH/GET and from the body for
  the others, and maps outcomes to 200/400/405/500.
- `HandlerProperties` (handler_properties.dfy): dispatch order, key sources,
  invariant preservation, no partial writes, confinement to the caller's
  store, and runs of many requests.
- `Scenarios` (scenarios.dfy): one concrete session, and the counterexample
  behind the finding below.

Behaviour of the code worth noting:

- `createUser` stores `authenticated: true`, not `false`.
- Registration has no conflict check. It overwrites any entry with the same
  id.
- The registry id is the request's `key`. The store name comes from
  `data.developerKey`. Validation looks up `developers/<Developer-Key>`, so
  the two are tied together only by what the client sends.
- Deleting an absent key succeeds.
- CREATEUSER at a key that already holds a record replaces it with the new
  email and password and `authenticated: true`, with no credential check.
- SETDEV needs no developer key, so anyone can register `developers/x` with
  another developer's `developerKey`, and `x` then validates to that
  developer's store.
- The code shown never produces a 404 or 401. GETAUTH, GET, SET and PUT
  answer with whatever the helpers `getAuth`, `getDataFromDB`,
  `storeDataInDB` and `updateDataInDB` resolve to, and those helpers are not
  part of this model.
- As written, the `catch` block answers 500 only for failures raised inside
  the `try` itself: the awaited `json()` (invalid JSON or a `null` body),
  the awaited developer-key validation, and the synchronous throw when
  `setDeveloper`, `createUser` or `signIn` reads a missing `data`. A
  rejection of a helper promise that is `return`ed without `await` never
  reaches the `catch`, and the request goes unanswered (see "## Findings").
  Only the corrected `Handle` answers every failure with 500.

## Model

| member | source | states |
|---|---|---|
| Namespaces.RegistryId | testworker.js:87 | validation reads the id `developers/` followed by the key, and the key can be read back from the id |
| Namespaces.StoreNameFor | testworker.js:184 | a developer store name starts with `dev_`, is only the bare prefix for an empty key, and is never the registry store `chatStore` |
| Namespaces.EnsureStore | testworker.js:112-118 | create-if-absent: the store names grow by exactly the opened name, existing stores keep their contents, and a new store is empty |
| Namespaces.Open | testworker.js:105-124 | opening a store never touches the registry; afterwards the store exists with its previous records |
| Namespaces.Register | testworker.js:183-203 | succeeds iff both the id and the data are present, whatever is already registered; the entry at the id becomes the data plus the derived store name; that store is created empty if it was absent and kept as it was otherwise, and no other store changes; a missing `data` or id writes nothing |
| Namespaces.Validate | testworker.js:78-101 | succeeds iff the key is truthy and `developers/<key>` is registered, giving that entry's store name; a missing or empty key is MissingDeveloperKey, an unknown one InvalidDeveloperKey |
| Namespaces.EnsureStoreIdempotent | testworker.js:116-118 | opening a store twice is the same as once, and opening an existing store changes nothing |
| Namespaces.StoreNameInjective | testworker.js:184 | distinct present developer keys give distinct store names |
| Namespaces.StoreNameUndefinedCollision | testworker.js:184 | a registration with no `developerKey` gets the store of the developer whose key is the text `undefined` |
| Namespaces.ValidatedStoreExists | testworker.js:91-92 | on a valid database the store name validation returns exists |
| Namespaces.RegisterKeepsValid | testworker.js:183-203 | registration keeps every registry entry pointing at its derived, existing store |
| Namespaces.RegisterIdempotent | testworker.js:191-198 | registering the same id and data twice gives the same database and outcome as once |
| Namespaces.RegisterThenValidate | testworker.js:184-192 | after registering `developers/k` with `developerKey: k`, key `k` validates to `dev_k`, whatever was there before |
| Namespaces.RegisterPreservesOtherValidation | testworker.js:191-192 | a registration does not change what any other developer key validates to |
| Namespaces.SameDeveloperKeySharesStore | testworker.js:184-191 | two registrations under different ids with the same `developerKey` validate to one shared store |
| Records.NewUser | testworker.js:128 | the created record is authenticated, has no other fields, and matches the credentials it was made from |
| Records.Upsert | testworker.js:129 | a put at a present key replaces that record and changes nothing else; a missing key fails after the store is opened |
| Records.CreateUser | testworker.js:127-130 | succeeds iff key and data are present, storing exactly `{email, password, authenticated: true}` at the key and changing no other record, store or registry entry; a missing `data` fails before any storage call |
| Records.SignIn | testworker.js:133-156 | succeeds iff a record exists at the key and its email and password equal the given ones; on success only that record's flag changes, to true; a missing record and wrong credentials both fail with InvalidCredentials and write no record (only opening the store, which on a valid database already exists) |
| Records.SignOut | testworker.js:159-180 | succeeds iff a record exists at the key, with no credential check; on success only its flag changes, to false; otherwise UserNotFound and no record is written |
| Records.Remove | testworker.js:206-216 | always succeeds; the key is absent from the developer's store afterwards and every other record, store and registry entry is unchanged |
| Records.OpenExisting | testworker.js:112-118 | opening an existing store leaves the database as it was, so failures on an existing store write nothing |
| Records.CreateThenSignIn | testworker.js:127-156 | a user created with some credentials can sign in with them and is then authenticated |
| Records.SignOutThenSignIn | testworker.js:133-180 | signing a signed-in user out and back in restores the database exactly |
| Records.SignInIdempotent | testworker.js:140-147 | a second sign-in with the same credentials succeeds and changes nothing |
| Records.SignOutIdempotent | testworker.js:166-171 | a second sign-out succeeds and changes nothing |
| Records.RemoveAbsent | testworker.js:206-213 | deleting a key an existing store lacks succeeds and changes nothing |
| Records.RecordOpsKeepValid | testworker.js:126-216 | no record operation breaks the registry invariant |
| Dispatch.Includes | testworker.js:8 | `includes` holds iff the substring occurs at some position |
| Dispatch.ParseAction | testworker.js:13-63 | an action is recognised only when `action` is exactly its tag |
| Types.Truthy | testworker.js:81 | the `!x` test on an optional string: false exactly for a missing value and for the empty string |
| Dispatch.Intercepts | testworker.js:8 | the handler responds only to POST requests whose path contains `/worker` |
| Records.CredentialsMatch | testworker.js:142 | the credential test of sign-in: strict equality of both email and password, a missing value equalling only a missing value |
| Dispatch.Route | testworker.js:25-65 | after validation, exactly GETAUTH, GET, SET and PUT go to the helpers not modelled, with the validated store; an unknown action is the 405 and a DELETE with a falsy key the 400, both with no change; every answer carries its status, and only the validated store may change or appear |
| Dispatch.CaughtByHandler | testworker.js:11-70 | the failures the `catch` block sees: invalid JSON, a missing `data`, and the two developer-key refusals |
| Dispatch.Answer | testworker.js:66-70 | a completed operation is answered 200 on success, and 500 with the failure otherwise, with the database it left |
| Dispatch.Handle | testworker.js:8-75 | only POSTs to `/worker` paths are answered; a body that is not JSON or is `null` is answered 500 with no change; every failure is answered (500); each reply carries its status; no command removes a registry entry or store; exactly GETAUTH/GET/SET/PUT with a valid key go to the undefined helpers, with the validated store name and the URL key (GETAUTH, GET) or the body key and data (SET, PUT) |
| Dispatch.HandleAsWritten | testworker.js:11-71 | only a SETDEV, CREATEUSER, SIGNIN or SIGNOUT failing with InvalidCredentials, UserNotFound or InvalidStorageKey goes unanswered; every 500 that is sent is for invalid JSON, a missing `data` or a failed validation; every reply sent and the database every request leaves are those of `Handle` |
| HandlerProperties.ParseTagRoundTrip | testworker.js:25-64 | every tag parses back to its action, and distinct actions have distinct tags |
| HandlerProperties.SetDevSkipsValidation | testworker.js:13-21 | SETDEV registers the body's `key` and `data`, whatever the `Developer-Key` header holds |
| HandlerProperties.ValidationFirst | testworker.js:23 | every other action, unknown ones included, is refused with 500 and no change when validation fails |
| HandlerProperties.UnknownActionRejected | testworker.js:63-64 | an unknown action with a valid key is answered 405 with no change |
| HandlerProperties.DeleteWithoutKeyRejected | testworker.js:58-61 | DELETE with a missing or empty body key is answered 400 before any store is opened |
| HandlerProperties.DeleteRemovesFromOwnStore | testworker.js:58-62 | DELETE with a key answers 200 and removes that key from the caller's store only |
| HandlerProperties.KeyFromUrl | testworker.js:42-53 | SIGNOUT, GETAUTH and GET do not depend on the body's `key` |
| HandlerProperties.KeyFromBody | testworker.js:13-62 | SETDEV, CREATEUSER, SIGNIN, SET, PUT and DELETE do not depend on the URL's `key` |
| HandlerProperties.RecordActionsRouted | testworker.js:26-49 | with a validated developer key, SIGNOUT signs out the URL's `key`, and CREATEUSER and SIGNIN act on the body's `key` and `data`, in the validated store |
| HandlerProperties.SignInRejectionUnansweredAsWritten | testworker.js:34-41 | as written, every SIGNIN with `data` and a key, a valid developer key and credentials that match no stored record goes unanswered with no write; corrected, it is answered 500 |
| HandlerProperties.SignOutAbsentUnansweredAsWritten | testworker.js:42-49 | as written, every SIGNOUT with a valid developer key of a URL key that names no record goes unanswered with no write; corrected, it is answered 500 |
| HandlerProperties.CaughtIffRaisedInsideTry | testworker.js:11-70 | an error reply reaches the `catch` block exactly when it was raised inside the `try`: by the awaited `json()`, the awaited validation, or a helper reading a missing `data` |
| HandlerProperties.CreateUserOverwritesRecord | testworker.js:26-33 | with a validated developer key, CREATEUSER at a key that already holds a record, signed in or not, answers 200 and replaces it with the new credentials and `authenticated: true`, touching no other record |
| HandlerProperties.HandleKeepsValid | testworker.js:8-75 | every answered request keeps the registry invariant |
| HandlerProperties.FailureChangesNothing | testworker.js:8-75 | on a valid database a failed, rejected or refused request leaves the database exactly as it was |
| HandlerProperties.HandleConfinedToOwnStore | testworker.js:23-65 | apart from SETDEV, no request changes the registry, the set of stores or any store other than the validated one |
| HandlerProperties.Run | testworker.js:1-75 | over a run of requests up to the first GETAUTH, GET, SET or PUT that passes validation, where `Run` stops, registry ids and store names only accumulate |
| HandlerProperties.RunKeepsValid | testworker.js:1-75 | from a valid database, the registry invariant holds after every run of requests up to the first GETAUTH, GET, SET or PUT that passes validation, where `Run` stops |
| HandlerProperties.RunWithoutSetDevKeepsRegistry | testworker.js:23-65 | a run with no SETDEV, up to the first GETAUTH, GET, SET or PUT that passes validation, where `Run` stops, never changes the registry |
| Scenarios.InterceptExamples | testworker.js:8 | a POST to `/api/worker/x` is intercepted; a GET to `/worker`, and POSTs to `/Worker` or `/work`, are not |
| Scenarios.RegisterCreateSignIn | testworker.js:13-41 | SETDEV creates `dev_abc`, CREATEUSER stores the user already signed in, and SIGNIN with its credentials succeeds |
| Scenarios.WrongPasswordThenSignOut | testworker.js:34-49 | a wrong password gives InvalidCredentials and no change; SIGNOUT by URL key clears the flag |
| Scenarios.UnregisteredKeyRefused | testworker.js:78-101 | an unregistered developer key is refused with 500 before any store access |
| Scenarios.WrongPasswordUnansweredAsWritten | testworker.js:34-41 | as written, a wrong-password SIGNIN gets no response, where the corrected handler answers |
| Scenarios.ValidationFailureCaughtAsWritten | testworker.js:66-70 | as written, a validation failure is still answered with 500 |

## Findings

| source | as written | input that shows it | evidently intended | confidence | as-written member | corrected member |
|---|---|---|---|---|---|---|
| testworker.js:14-62 | inside the `async` handler's `try`, the helpers' promises are `return`ed without `await`, so their rejections (wrong credentials, unknown user, storage errors) never reach the `catch` block and `respondWith` gets a rejected promise | SIGNIN for an existing user `u1` with a wrong password | the `catch` block answers every failure with `{status: 'error', message}` and status 500 | high (not executed) | Dispatch.HandleAsWritten, shown by HandlerProperties.SignInRejectionUnansweredAsWritten and Scenarios.WrongPasswordUnansweredAsWritten | Dispatch.Handle |

## Left out

- `api/server.js`: an HTTP forwarder with CORS headers and fixed GET replies, with no logic of its own.
- `getAuth`, `getDataFromDB`, `storeDataInDB` and `updateDataInDB` are not part of this model; their source is not available. GETAUTH, GET, SET and PUT end in a `Delegated` outcome naming the call. CREATEUSER assumes `storeDataInDB` is an upsert that opens the store first, and that a missing key is refused, as IndexedDB refuses a put without an in-line key.
- IndexedDB version gating: `onupgradeneeded` only runs when the database is first created at version 1. Every path calls `openDB()` with the default name `chatStore` before anything else (testworker.js:79 in validation, testworker.js:186 in `setDeveloper`), so that one upgrade only ever creates `chatStore`. No developer store is ever created, and as written every CREATEUSER, SIGNIN, SIGNOUT and DELETE fails at `db.transaction(storeName)`. The model takes `openDB(storeName)` as the create-if-absent it evidently means.
- Storage failures (`onerror` callbacks, a database that cannot be opened) are not modelled. No operation fails for lack of storage.
- Concurrency and async ordering: each request runs to completion before the next. `signOut` resolves without waiting for its `put` (testworker.js:170-171), and the model treats that put as done. Last-write-wins races are not modelled.
- Message texts, response body wording beyond the reply kind, and `console.log`.
- JSON values other than strings or a missing value for `key`, `developerKey`, `email`, `password` and `action`: for example a numeric key `0`, which is falsy. A `data` that is not an object is not modelled either.
- `error.status || 500`: no error the worker raises carries a `status`, so every error the `catch` block sees is answered with 500.

=== FILE: dispatch.dfy ===
/** The service worker's `fetch` handler: which requests it answers, the
    `SETDEV` bootstrap, developer-key validation before every other action,
    routing by action, and the mapping of outcomes to HTTP responses. */
module Dispatch {
  import opened Types
  import opened Namespaces
  import Records

  /** `sub` occurs in `s` starting at position `i`. */
  predicate OccursAt(s: string, sub: string, i: int) {
    0 <= i <= |s| - |sub| && s[i..i + |sub|] == sub
  }

  /** `s.includes(sub)`: `sub` occurs in `s` at some position. */
  function Includes(s: string, sub: string): (b: bool)
    ensures b <==> exists i :: OccursAt(s, sub, i)
    decreases |s|
  {
    if |sub| > |s| then false
    else if s[..|sub|] == sub then assert OccursAt(s, sub, 0); true
    else
      var b := Includes(s[1..], sub);
      assert b ==> exists i :: OccursAt(s, sub, i) by {
        if b {
          var j :| OccursAt(s[1..], sub, j);
          assert s[j + 1..j + 1 + |sub|] == s[1..][j..j + |sub|];
          assert OccursAt(s, sub, j + 1);
        }
      }
      assert (exists i :: OccursAt(s, sub, i)) ==> b by {
        if exists i :: OccursAt(s, sub, i) {
          var i :| OccursAt(s, sub, i);
          assert i != 0;
          assert s[1..][i - 1..i - 1 + |sub|] == s[i..i + |sub|];
          assert OccursAt(s[1..], sub, i - 1);
        }
      }
      b
  }

  /** The actions the handler recognises; `Other` is every other value of
      `action`, a missing one included. */
  datatype Action = SetDev | CreateUser | SignIn | SignOut | GetAuth | Get | Set | Put | Delete | Other

  /** The `action` string of a recognised action. */
  function Tag(a: Action): string
    requires a != Other
  {
    match a
    case SetDev => "SETDEV"
    case CreateUser => "CREATEUSER"
    case SignIn => "SIGNIN"
    case SignOut => "SIGNOUT"
    case GetAuth => "GETAUTH"
    case Get => "GET"
    case Set => "SET"
    case Put => "PUT"
    case Delete => "DELETE"
  }

  /** The strict comparisons of `requestData.action` against the tags. */
  function ParseAction(action: Option<string>): (a: Action)
    ensures a != Other ==> action == Some(Tag(a))
  {
    match action
    case None => Other
    case Some(t) =>
      if t == "SETDEV" then SetDev
      else if t == "CREATEUSER" then CreateUser
      else if t == "SIGNIN" then SignIn
      else if t == "SIGNOUT" then SignOut
      else if t == "GETAUTH" then GetAuth
      else if t == "GET" then Get
      else if t == "SET" then Set
      else if t == "PUT" then Put
      else if t == "DELETE" then Delete
      else Other
  }

  /** The parsed JSON body of a request. */
  datatype Body = Body(action: Option<string>, key: Option<string>, data: Option<Data>)

  /** A fetch event: URL path, HTTP method, the URL's `key` query parameter,
      the `Developer-Key` header, and the body (`None` when it is not JSON or
      is `null`). */
  datatype Request = Request(
    path: string,
    httpMethod: string,
    urlKey: Option<string>,
    developerKey: Option<string>,
    body: Option<Body>)

  /** Answers without a `status` field: the 400 and 405 replies. */
  datatype Rejection = KeyRequired | UnsupportedMethod

  /** Body of a response: `{status: 'success'}`, the `{status: 'error'}` the
      `catch` block builds, or an `{error}` reply. */
  datatype Reply = Success | Thrown(reason: Failure) | Rejected(rejection: Rejection)

  datatype Response = Response(reply: Reply, httpStatus: int)

  /** Calls into helpers this model does not define (`getAuth`,
      `getDataFromDB`, `storeDataInDB`, `updateDataInDB`), whose promise is
      returned as the response. */
  datatype ExternalCall =
    | GetAuthCall(key: Option<string>, storeName: string)
    | GetDataCall(key: Option<string>, storeName: string)
    | StoreDataCall(key: Option<string>, data: Option<Data>, storeName: string)
    | UpdateDataCall(key: Option<string>, data: Option<Data>, storeName: string)

  /** What the handler does with one fetch event. `Unanswered` is a promise
      given to `respondWith` that rejects: the page's fetch fails with a
      network error and no HTTP status. */
  datatype Outcome =
    | NotIntercepted
    | Handled(state: State, response: Response)
    | Delegated(call: ExternalCall)
    | Unanswered(state: State, reason: Failure)

  /** The handler only answers POST requests whose path contains `/worker`. */
  predicate Intercepts(req: Request) {
    Includes(req.path, "/worker") && req.httpMethod == "POST"
  }

  /** The HTTP status each kind of reply is sent with. */
  predicate StatusFits(resp: Response) {
    && (resp.reply.Success? <==> resp.httpStatus == 200)
    && (resp.reply.Thrown? <==> resp.httpStatus == 500)
    && (resp.reply == Rejected(KeyRequired) <==> resp.httpStatus == 400)
    && (resp.reply == Rejected(UnsupportedMethod) <==> resp.httpStatus == 405)
  }

  /** The response for a completed storage operation: 200, or an error
      caught and answered with 500 (no error of the worker carries its own
      `status`). */
  function Answer(e: Effect): (r: Outcome)
    ensures r.Handled? && r.state == e.state && StatusFits(r.response)
    ensures r.response.reply.Success? <==> e.status == Done
    ensures e.status.Failed? ==> r.response.reply == Thrown(e.status.reason)
  {
    match e.status
    case Done => Handled(e.state, Response(Success, 200))
    case Failed(f) => Handled(e.state, Response(Thrown(f), 500))
  }

  /** The action switch, after the developer key validated to `storeName`:
      SIGNOUT, GETAUTH and GET take the record key from the URL, all others
      from the body. */
  function Route(s: State, action: Action, body: Body, urlKey: Option<string>, storeName: string): (r: Outcome)
    requires action != SetDev
    ensures !r.NotIntercepted? && !r.Unanswered?
    ensures r.Handled? ==> StatusFits(r.response)
    ensures r.Delegated? <==> action in {GetAuth, Get, Set, Put}
    ensures r.Delegated? ==> r.call.storeName == storeName
    ensures r.Handled? && r.response.reply == Rejected(UnsupportedMethod) <==> action == Other
    ensures r.Handled? && r.response.reply == Rejected(KeyRequired) <==> action == Delete && !Truthy(body.key)
    ensures r.Handled? && r.response.reply.Rejected? ==> r.state == s
    ensures r.Handled? ==>
      && r.state.registry == s.registry
      && s.stores.Keys <= r.state.stores.Keys <= s.stores.Keys + {storeName}
      && (forall n :: n in s.stores && n != storeName ==> r.state.stores[n] == s.stores[n])
  {
    match action
    case CreateUser => Answer(Records.CreateUser(s, storeName, body.key, body.data))
    case SignIn => Answer(Records.SignIn(s, storeName, body.key, body.data))
    case SignOut => Answer(Records.SignOut(s, storeName, urlKey))
    case GetAuth => Delegated(GetAuthCall(urlKey, storeName))
    case Get => Delegated(GetDataCall(urlKey, storeName))
    case Set => Delegated(StoreDataCall(body.key, body.data, storeName))
    case Put => Delegated(UpdateDataCall(body.key, body.data, storeName))
    case Delete =>
      if !Truthy(body.key) then Handled(s, Response(Rejected(KeyRequired), 400))
      else Answer(Records.Remove(s, storeName, body.key.value))
    case Other => Handled(s, Response(Rejected(UnsupportedMethod), 405))
  }

  /** The fetch handler with every failure answered by the `catch` block
      (status 500), as its `try`/`catch` is evidently meant to do. */
  function Handle(s: State, req: Request): (r: Outcome)
    ensures r.NotIntercepted? <==> !Intercepts(req)
    ensures !r.Unanswered?
    ensures Intercepts(req) && req.body.None? ==> r == Handled(s, Response(Thrown(MalformedRequest), 500))
    ensures r.Handled? ==> StatusFits(r.response)
    ensures r.Handled? ==>
      s.registry.Keys <= r.state.registry.Keys && s.stores.Keys <= r.state.stores.Keys
    ensures r.Delegated? <==>
      && Intercepts(req) && req.body.Some?
      && ParseAction(req.body.value.action) in {GetAuth, Get, Set, Put}
      && Validate(s, req.developerKey).Ok?
    ensures r.Delegated? ==> r.call.storeName == Validate(s, req.developerKey).value
    ensures r.Delegated? && (r.call.GetAuthCall? || r.call.GetDataCall?) ==> r.call.key == req.urlKey
    ensures r.Delegated? && (r.call.StoreDataCall? || r.call.UpdateDataCall?) ==>
      r.call.key == req.body.value.key && r.call.data == req.body.value.data
  {
    if !Intercepts(req) then NotIntercepted
    else
      match req.body
      case None => Handled(s, Response(Thrown(MalformedRequest), 500))
      case Some(body) =>
        var action := ParseAction(body.action);
        if action == SetDev then Answer(Register(s, body.key, body.data))
        else
          match Validate(s, req.developerKey)
          case Err(f) => Handled(s, Response(Thrown(f), 500))
          case Ok(storeName) => Route(s, action, body, req.urlKey, storeName)
  }

  /** The failures the `catch` block sees: those of the awaited `json()` and
      the awaited validation, and the synchronous throw when a helper reads a
      missing `data`. Every other failure rejects a promise the handler
      `return`s without `await`, which the `catch` block never sees. */
  predicate CaughtByHandler(f: Failure) {
    f in {MalformedRequest, MissingDeveloperKey, InvalidDeveloperKey}
  }

  /** The request fails inside the `try` itself, not in a returned promise:
      its body is not JSON (or is `null`), a developer key is validated and
      refused, or `setDeveloper`, `createUser` or `signIn` is handed no
      `data` and throws while reading it. */
  predicate RaisedInsideTry(s: State, req: Request) {
    || req.body.None?
    || (ParseAction(req.body.value.action) != SetDev && Validate(s, req.developerKey).Err?)
    || (ParseAction(req.body.value.action) in {SetDev, CreateUser, SignIn} && req.body.value.data.None?)
  }

  /** The fetch handler as written: a failure that rejects a returned,
      un-awaited promise leaves the request unanswered instead of producing
      the 500 reply. Only a SETDEV, CREATEUSER, SIGNIN or SIGNOUT whose
      helper's promise rejects goes unanswered; every reply that is sent, and
      the database every request leaves, are those of the corrected handler. */
  function HandleAsWritten(s: State, req: Request): (r: Outcome)
    ensures r.NotIntercepted? <==> !Intercepts(req)
    ensures r.Delegated? <==> Handle(s, req).Delegated?
    ensures r.Delegated? ==> r.call == Handle(s, req).call
    ensures r.Handled? || r.Unanswered? ==> Handle(s, req).Handled? && r.state == Handle(s, req).state
    ensures r.Handled? ==> r.response == Handle(s, req).response
    ensures r.Handled? && r.response.reply.Thrown? ==> CaughtByHandler(r.response.reply.reason)
    ensures r.Unanswered? ==> Handle(s, req).response.reply == Thrown(r.reason)
    ensures r.Unanswered? ==>
      && Intercepts(req) && req.body.Some?
      && ParseAction(req.body.value.action) in {SetDev, CreateUser, SignIn, SignOut}
      && r.reason in {InvalidCredentials, UserNotFound, InvalidStorageKey}
  {
    var o := Handle(s, req);
    if o.Handled? && o.response.reply.Thrown? && !CaughtByHandler(o.response.reply.reason) then
      Unanswered(o.state, o.response.reply.reason)
    else o
  }
}

=== FILE: handler_properties.dfy ===
/** Properties of the fetch handler: dispatch order, where each action reads
    its record key, the invariant every command keeps, confinement to the
    caller's own store, and runs of several requests. */
module HandlerProperties {
  import opened Types
  import opened Namespaces
  import Records
  import opened Dispatch

  /** The action of an intercepted request with a body. */
  function ActionOf(req: Request): Action
    requires req.body.Some?
  {
    ParseAction(req.body.value.action)
  }

  /** Every recognised tag parses back to its action, and distinct actions
      have distinct tags. */
  lemma ParseTagRoundTrip(a: Action, b: Action)
    requires a != Other && b != Other
    ensures ParseAction(Some(Tag(a))) == a
    ensures Tag(a) == Tag(b) ==> a == b
  {
  }

  /** SETDEV never looks at the `Developer-Key` header: it registers the
      body's `key` and `data` whatever the header holds, even when no
      developer key would validate. */
  lemma SetDevSkipsValidation(s: State, req: Request, header: Option<string>)
    requires Intercepts(req) && req.body.Some? && ActionOf(req) == SetDev
    ensures Handle(s, req) == Handle(s, req.(developerKey := header))
    ensures Handle(s, req) == Answer(Register(s, req.body.value.key, req.body.value.data))
  {
  }

  /** Every other action, unknown ones included, validates the developer key
      first; a failed validation is answered with 500 and touches nothing. */
  lemma ValidationFirst(s: State, req: Request)
    requires Intercepts(req) && req.body.Some? && ActionOf(req) != SetDev
    requires Validate(s, req.developerKey).Err?
    ensures Handle(s, req) == Handled(s, Response(Thrown(Validate(s, req.developerKey).reason), 500))
  {
  }

  /** An unknown action that passes validation is answered with 405. */
  lemma UnknownActionRejected(s: State, req: Request)
    requires Intercepts(req) && req.body.Some? && ActionOf(req) == Other
    requires Validate(s, req.developerKey).Ok?
    ensures Handle(s, req) == Handled(s, Response(Rejected(UnsupportedMethod), 405))
  {
  }

  /** DELETE with a missing or empty body key is answered with 400 before any
      store is opened, so the database is exactly as it was. */
  lemma DeleteWithoutKeyRejected(s: State, req: Request)
    requires Intercepts(req) && req.body.Some? && ActionOf(req) == Delete
    requires Validate(s, req.developerKey).Ok? && !Truthy(req.body.value.key)
    ensures Handle(s, req) == Handled(s, Response(Rejected(KeyRequired), 400))
  {
  }

  /** DELETE of a present key succeeds whether or not a record is stored
      there, and removes it from the caller's store only. */
  lemma DeleteRemovesFromOwnStore(s: State, req: Request)
    requires Valid(s)
    requires Intercepts(req) && req.body.Some? && ActionOf(req) == Delete
    requires Validate(s, req.developerKey).Ok? && Truthy(req.body.value.key)
    ensures
      var r := Handle(s, req);
      var name := Validate(s, req.developerKey).value;
      && r.Handled? && r.response == Response(Success, 200)
      && r.state.registry == s.registry
      && r.state.stores == s.stores[name := s.stores[name] - {req.body.value.key.value}]
  {
    ValidatedStoreExists(s, req.developerKey);
  }

  /** SIGNOUT, GETAUTH and GET read the record key from the URL: the body's
      `key` makes no difference to them. */
  lemma KeyFromUrl(s: State, req: Request, bodyKey: Option<string>)
    requires Intercepts(req) && req.body.Some? && ActionOf(req) in {SignOut, GetAuth, Get}
    ensures Handle(s, req) == Handle(s, req.(body := Some(req.body.value.(key := bodyKey))))
  {
  }

  /** SETDEV, CREATEUSER, SIGNIN, SET, PUT and DELETE read the record key from
      the body: the URL's `key` makes no difference to them. */
  lemma KeyFromBody(s: State, req: Request, urlKey: Option<string>)
    requires Intercepts(req) && req.body.Some?
    requires ActionOf(req) in {SetDev, CreateUser, SignIn, Set, Put, Delete}
    ensures Handle(s, req) == Handle(s, req.(urlKey := urlKey))
  {
  }

  /** With a developer key that validates to `name`, SIGNOUT passes the URL's
      `key` on to sign-out, and CREATEUSER and SIGNIN pass the body's `key`
      and `data` on to user creation and sign-in, in that store. */
  lemma RecordActionsRouted(s: State, req: Request, name: string)
    requires Intercepts(req) && req.body.Some?
    requires Validate(s, req.developerKey) == Ok(name)
    ensures ActionOf(req) == SignOut ==>
      Handle(s, req) == Answer(Records.SignOut(s, name, req.urlKey))
    ensures ActionOf(req) == CreateUser ==>
      Handle(s, req) == Answer(Records.CreateUser(s, name, req.body.value.key, req.body.value.data))
    ensures ActionOf(req) == SignIn ==>
      Handle(s, req) == Answer(Records.SignIn(s, name, req.body.value.key, req.body.value.data))
  {
  }

  /** As written, every SIGNIN on a valid database whose developer key
      validates and whose credentials do not match a stored record goes
      unanswered, and writes nothing; the corrected handler answers it 500. */
  lemma SignInRejectionUnansweredAsWritten(s: State, req: Request)
    requires Valid(s)
    requires Intercepts(req) && req.body.Some? && ActionOf(req) == SignIn
    requires req.body.value.data.Some? && req.body.value.key.Some?
    requires Validate(s, req.developerKey).Ok?
    requires
      var store := s.stores[Validate(s, req.developerKey).value];
      var k := req.body.value.key.value;
      !(k in store && Records.CredentialsMatch(store[k], req.body.value.data.value))
    ensures Handle(s, req) == Handled(s, Response(Thrown(InvalidCredentials), 500))
    ensures HandleAsWritten(s, req) == Unanswered(s, InvalidCredentials)
  {
    var name := Validate(s, req.developerKey).value;
    ValidatedStoreExists(s, req.developerKey);
    Records.OpenExisting(s, name);
    RecordActionsRouted(s, req, name);
  }

  /** As written, every SIGNOUT on a valid database whose developer key
      validates and whose URL key names no record goes unanswered, and writes
      nothing; the corrected handler answers it 500. */
  lemma SignOutAbsentUnansweredAsWritten(s: State, req: Request)
    requires Valid(s)
    requires Intercepts(req) && req.body.Some? && ActionOf(req) == SignOut
    requires req.urlKey.Some? && Validate(s, req.developerKey).Ok?
    requires req.urlKey.value !in s.stores[Validate(s, req.developerKey).value]
    ensures Handle(s, req) == Handled(s, Response(Thrown(UserNotFound), 500))
    ensures HandleAsWritten(s, req) == Unanswered(s, UserNotFound)
  {
    var name := Validate(s, req.developerKey).value;
    ValidatedStoreExists(s, req.developerKey);
    Records.OpenExisting(s, name);
    RecordActionsRouted(s, req, name);
  }

  /** An error reply reaches the `catch` block exactly when the failure was
      raised inside the `try` itself: by the awaited `json()`, the awaited
      validation, or a helper reading a missing `data`. */
  lemma CaughtIffRaisedInsideTry(s: State, req: Request)
    requires Handle(s, req).Handled? && Handle(s, req).response.reply.Thrown?
    ensures CaughtByHandler(Handle(s, req).response.reply.reason) <==> RaisedInsideTry(s, req)
  {
  }

  /** CREATEUSER at a key that already holds a record, signed in or not,
      replaces it with no credential check: the new email and password win,
      the flag is set, and no other record changes. */
  lemma CreateUserOverwritesRecord(s: State, req: Request)
    requires Valid(s)
    requires Intercepts(req) && req.body.Some? && ActionOf(req) == CreateUser
    requires Validate(s, req.developerKey).Ok?
    requires req.body.value.key.Some? && req.body.value.data.Some?
    requires req.body.value.key.value in s.stores[Validate(s, req.developerKey).value]
    ensures
      var r := Handle(s, req);
      var name := Validate(s, req.developerKey).value;
      var k := req.body.value.key.value;
      var d := req.body.value.data.value;
      && r.Handled? && r.response == Response(Success, 200)
      && r.state.registry == s.registry
      && r.state.stores == s.stores[name := s.stores[name][k := Record(d.email, d.password, true, map[])]]
  {
    var name := Validate(s, req.developerKey).value;
    ValidatedStoreExists(s, req.developerKey);
    RecordActionsRouted(s, req, name);
  }

  /** Every request the handler answers keeps the registry invariant. */
  lemma HandleKeepsValid(s: State, req: Request)
    requires Valid(s)
    ensures Handle(s, req).Handled? ==> Valid(Handle(s, req).state)
  {
    if Intercepts(req) && req.body.Some? {
      var body := req.body.value;
      if ActionOf(req) == SetDev {
        RegisterKeepsValid(s, body.key, body.data);
      } else if Validate(s, req.developerKey).Ok? {
        var name := Validate(s, req.developerKey).value;
        Records.RecordOpsKeepValid(s, name, body.key, body.data);
        Records.RecordOpsKeepValid(s, name, req.urlKey, body.data);
      }
    }
  }

  /** On a valid database a request that fails, is rejected or is refused
      leaves the database exactly as it was: no partial write. */
  lemma FailureChangesNothing(s: State, req: Request)
    requires Valid(s)
    requires Handle(s, req).Handled? && !Handle(s, req).response.reply.Success?
    ensures Handle(s, req).state == s
  {
    if req.body.Some? && ActionOf(req) != SetDev && Validate(s, req.developerKey).Ok? {
      ValidatedStoreExists(s, req.developerKey);
      Records.OpenExisting(s, Validate(s, req.developerKey).value);
    }
  }

  /** Every action other than SETDEV is confined to the caller's own store:
      the registry, the set of stores and every other developer's store are
      unchanged. */
  lemma HandleConfinedToOwnStore(s: State, req: Request)
    requires Valid(s)
    requires req.body.Some? && ActionOf(req) != SetDev
    requires Handle(s, req).Handled?
    ensures Handle(s, req).state.registry == s.registry
    ensures Handle(s, req).state.stores.Keys == s.stores.Keys
    ensures forall n :: n in s.stores && (Validate(s, req.developerKey).Err? || n != Validate(s, req.developerKey).value) ==>
      Handle(s, req).state.stores[n] == s.stores[n]
  {
    if Validate(s, req.developerKey).Ok? {
      ValidatedStoreExists(s, req.developerKey);
    }
  }

  /** The database after a run of requests, or `None` once a request reaches
      a helper this model does not define: a GETAUTH, GET, SET or PUT that
      passes validation, where the run stops. */
  function Run(s: State, reqs: seq<Request>): (r: Option<State>)
    ensures r.Some? ==> s.registry.Keys <= r.value.registry.Keys && s.stores.Keys <= r.value.stores.Keys
    decreases |reqs|
  {
    if |reqs| == 0 then Some(s)
    else
      match Handle(s, reqs[0])
      case NotIntercepted => Run(s, reqs[1..])
      case Handled(s1, _) => Run(s1, reqs[1..])
      case Delegated(_) => None
  }

  /** From a valid database, the registry invariant holds after every run of
      requests up to the first GETAUTH, GET, SET or PUT that passes
      validation, where `Run` stops. */
  lemma {:induction false} RunKeepsValid(s: State, reqs: seq<Request>)
    requires Valid(s)
    ensures Run(s, reqs).Some? ==> Valid(Run(s, reqs).value)
    decreases |reqs|
  {
    if |reqs| > 0 {
      HandleKeepsValid(s, reqs[0]);
      match Handle(s, reqs[0])
      case NotIntercepted => RunKeepsValid(s, reqs[1..]);
      case Handled(s1, _) => RunKeepsValid(s1, reqs[1..]);
      case Delegated(_) =>
    }
  }

  /** A run of requests none of which is SETDEV never changes the registry,
      up to the first GETAUTH, GET, SET or PUT that passes validation, where
      `Run` stops. */
  lemma {:induction false} RunWithoutSetDevKeepsRegistry(s: State, reqs: seq<Request>)
    requires Valid(s)
    requires forall i :: 0 <= i < |reqs| && reqs[i].body.Some? ==> ActionOf(reqs[i]) != SetDev
    ensures Run(s, reqs).Some? ==> Run(s, reqs).value.registry == s.registry
    decreases |reqs|
  {
    if |reqs| > 0 {
      HandleKeepsValid(s, reqs[0]);
      assert forall i :: 0 <= i < |reqs[1..]| ==> reqs[1..][i] == reqs[i + 1];
      match Handle(s, reqs[0])
      case NotIntercepted => RunWithoutSetDevKeepsRegistry(s, reqs[1..]);
      case Handled(s1, _) =>
        if reqs[0].body.Some? {
          HandleConfinedToOwnStore(s, reqs[0]);
        }
        RunWithoutSetDevKeepsRegistry(s1, reqs[1..]);
      case Delegated(_) =>
    }
  }
}

=== FILE: namespaces.dfy ===
/** The developer registry (`chatStore`), the lazy creation of developer
    object stores, developer registration (`setDeveloper`) and developer-key
    validation (`validateDeveloperKey`). */
module Namespaces {
  import opened Types

  /** Name of the fixed registry object store. */
  const RegistryStoreName := "chatStore"

  /** Prefix of the registry id that validation looks a developer key up under. */
  const RegistryPrefix := "developers/"

  /** Prefix of every developer object store name. */
  const StorePrefix := "dev_"

  /** The registry id validation reads for `developerKey`. */
  function RegistryId(developerKey: string): (id: string)
    ensures |id| == |RegistryPrefix| + |developerKey|
    ensures id[..|RegistryPrefix|] == RegistryPrefix && id[|RegistryPrefix|..] == developerKey
  {
    RegistryPrefix + developerKey
  }

  /** How a template literal renders an optional string: a missing value
      becomes the text "undefined". */
  function Render(v: Option<string>): string {
    match v
    case Some(s) => s
    case None => "undefined"
  }

  /** The object store name registration derives from `data.developerKey`. */
  function StoreNameFor(developerKey: Option<string>): (name: string)
    ensures |name| >= |StorePrefix| && name[..|StorePrefix|] == StorePrefix
    ensures |name| == |StorePrefix| <==> developerKey == Some("")
    ensures name != RegistryStoreName
  {
    var name := StorePrefix + Render(developerKey);
    assert name[0] != RegistryStoreName[0];
    name
  }

  /** Records the named store holds once it has been opened: its contents,
      or nothing when the store does not exist yet. */
  function StoreOf(s: State, name: string): Store {
    if name in s.stores then s.stores[name] else map[]
  }

  /** Create-if-absent of an object store (the upgrade handler of `openDB`). */
  function EnsureStore(stores: map<string, Store>, name: string): (r: map<string, Store>)
    ensures r.Keys == stores.Keys + {name}
    ensures forall n :: n in stores ==> n in r && r[n] == stores[n]
    ensures name !in stores ==> r[name] == map[]
  {
    if name in stores then stores else stores[name := map[]]
  }

  /** `openDB(name)` on the whole database: the registry is untouched. */
  function Open(s: State, name: string): (r: State)
    ensures r.registry == s.registry
    ensures r.stores.Keys == s.stores.Keys + {name}
    ensures name in r.stores && r.stores[name] == StoreOf(s, name)
    ensures forall n :: n in s.stores ==> n in r.stores && r.stores[n] == s.stores[n]
  {
    s.(stores := EnsureStore(s.stores, name))
  }

  /** Invariant kept by every command: each registry entry names the store its
      developer key derives, and that store exists. */
  ghost predicate Valid(s: State) {
    forall id :: id in s.registry ==>
      && s.registry[id].storeName == StoreNameFor(s.registry[id].data.developerKey)
      && s.registry[id].storeName in s.stores
  }

  /** `setDeveloper(key, data)`: reads `data.developerKey` (a missing `data`
      throws), puts `{id: key, data: {...data, storeName}}` into the registry,
      overwriting any entry with that id, then opens the developer's store. */
  function Register(s: State, key: Option<string>, data: Option<Data>): (r: Effect)
    ensures r.status == Done <==> key.Some? && data.Some?
    ensures data.None? ==> r == Effect(s, Failed(MalformedRequest))
    ensures data.Some? && key.None? ==> r == Effect(s, Failed(InvalidStorageKey))
    ensures r.status == Done ==>
      && r.state.registry == s.registry[key.value := Registration(data.value, StoreNameFor(data.value.developerKey))]
      && r.state.stores.Keys == s.stores.Keys + {StoreNameFor(data.value.developerKey)}
      && (forall n :: n in s.stores ==> r.state.stores[n] == s.stores[n])
      && r.state.stores[StoreNameFor(data.value.developerKey)] == StoreOf(s, StoreNameFor(data.value.developerKey))
  {
    match data
    case None => Effect(s, Failed(MalformedRequest))
    case Some(d) =>
      var storeName := StoreNameFor(d.developerKey);
      match key
      case None => Effect(s, Failed(InvalidStorageKey))
      case Some(id) =>
        var s1 := s.(registry := s.registry[id := Registration(d, storeName)]);
        Effect(Open(s1, storeName), Done)
  }

  /** `validateDeveloperKey`: a missing or empty key is refused; otherwise the
      registry entry `developers/<key>` supplies the developer's store name. */
  function Validate(s: State, developerKey: Option<string>): (r: Result<string>)
    ensures r.Ok? <==> Truthy(developerKey) && RegistryId(developerKey.value) in s.registry
    ensures !Truthy(developerKey) ==> r == Err(MissingDeveloperKey)
    ensures Truthy(developerKey) && r.Err? ==> r == Err(InvalidDeveloperKey)
    ensures r.Ok? ==> r.value == s.registry[RegistryId(developerKey.value)].storeName
  {
    if !Truthy(developerKey) then Err(MissingDeveloperKey)
    else
      var id := RegistryId(developerKey.value);
      if id in s.registry then Ok(s.registry[id].storeName) else Err(InvalidDeveloperKey)
  }

  /** Opening a store is idempotent. */
  lemma EnsureStoreIdempotent(stores: map<string, Store>, name: string)
    ensures EnsureStore(EnsureStore(stores, name), name) == EnsureStore(stores, name)
    ensures name in stores ==> EnsureStore(stores, name) == stores
  {
  }

  /** Distinct present developer keys derive distinct store names. */
  lemma StoreNameInjective(a: string, b: string)
    ensures StoreNameFor(Some(a)) == StoreNameFor(Some(b)) ==> a == b
  {
    if StoreNameFor(Some(a)) == StoreNameFor(Some(b)) {
      assert a == StoreNameFor(Some(a))[|StorePrefix|..];
      assert b == StoreNameFor(Some(b))[|StorePrefix|..];
    }
  }

  /** A registration whose data has no `developerKey` shares its store with a
      developer whose key is the text "undefined". */
  lemma StoreNameUndefinedCollision()
    ensures StoreNameFor(None) == StoreNameFor(Some("undefined"))
  {
  }

  /** A validated developer key names an existing store. */
  lemma ValidatedStoreExists(s: State, developerKey: Option<string>)
    requires Valid(s)
    ensures Validate(s, developerKey).Ok? ==> Validate(s, developerKey).value in s.stores
  {
  }

  /** Registration keeps the invariant. */
  lemma RegisterKeepsValid(s: State, key: Option<string>, data: Option<Data>)
    requires Valid(s)
    ensures Valid(Register(s, key, data).state)
  {
  }

  /** Registering the same entry twice is the same as registering it once. */
  lemma RegisterIdempotent(s: State, key: Option<string>, data: Option<Data>)
    ensures Register(Register(s, key, data).state, key, data) == Register(s, key, data)
  {
  }

  /** Round trip: registering under `developers/<k>` with `developerKey: k`
      makes `k` validate to the store `dev_<k>`, whatever was registered
      before under that id. */
  lemma RegisterThenValidate(s: State, k: string, data: Data)
    requires k != "" && data.developerKey == Some(k)
    ensures Validate(Register(s, Some(RegistryId(k)), Some(data)).state, Some(k)) == Ok(StorePrefix + k)
  {
  }

  /** Registration under one id leaves what every other developer key
      validates to unchanged. */
  lemma RegisterPreservesOtherValidation(s: State, key: string, data: Data, other: string)
    requires other != "" && RegistryId(other) != key
    ensures Validate(Register(s, Some(key), Some(data)).state, Some(other)) == Validate(s, Some(other))
  {
  }

  /** Registrations under different ids that carry the same `developerKey`
      share one store: the store name depends on the data only. */
  lemma SameDeveloperKeySharesStore(s: State, k1: string, k2: string, d1: Data, d2: Data)
    requires k1 != "" && k2 != ""
    requires d1.developerKey == d2.developerKey
    ensures
      var s1 := Register(Register(s, Some(RegistryId(k1)), Some(d1)).state, Some(RegistryId(k2)), Some(d2)).state;
      Validate(s1, Some(k1)) == Validate(s1, Some(k2))
  {
  }
}

=== FILE: records.dfy ===
/** Record operations on one developer's object store: the upsert behind
    `createUser`, sign-in, sign-out and `removeDataFromDB`. Each opens the
    developer's store first (create-if-absent), as `openDB(storeName)` does. */
module Records {
  import opened Types
  import opened Namespaces

  /** The credential test of `signIn`: strict equality of both fields, where
      two missing values are equal. */
  predicate CredentialsMatch(rec: Record, data: Data) {
    rec.email == data.email && rec.password == data.password
  }

  /** The record `createUser` writes: exactly email, password and
      `authenticated: true`. */
  function NewUser(data: Data): (rec: Record)
    ensures rec.authenticated && rec.rest == map[]
    ensures CredentialsMatch(rec, data)
  {
    Record(data.email, data.password, true, map[])
  }

  /** `s'` differs from `s` at most in entry `key` of store `name` (which `s'`
      holds, created empty if `s` lacked it): the registry, every other store
      and every other record are as they were. */
  ghost predicate ChangesOnly(s: State, s': State, name: string, key: string) {
    && s'.registry == s.registry
    && s'.stores.Keys == s.stores.Keys + {name}
    && (forall n :: n in s.stores && n != name ==> s'.stores[n] == s.stores[n])
    && (forall k :: k != key ==> (k in s'.stores[name] <==> k in StoreOf(s, name)))
    && (forall k :: k != key && k in StoreOf(s, name) ==> s'.stores[name][k] == StoreOf(s, name)[k])
  }

  /** `s'` differs from `s` only in the authentication flag of the existing
      record `key` of store `name`, which is `flag` in `s'`. */
  ghost predicate OnlyFlagSet(s: State, s': State, name: string, key: string, flag: bool) {
    && name in s.stores && key in s.stores[name]
    && ChangesOnly(s, s', name, key)
    && key in s'.stores[name]
    && s'.stores[name][key] == s.stores[name][key].(authenticated := flag)
  }

  /** Put `rec` at `key` in store `name`, overwriting any record there (the
      behaviour `createUser` relies on from `storeDataInDB`). A missing key is
      refused by the object store. */
  function Upsert(s: State, name: string, key: Option<string>, rec: Record): (r: Effect)
    ensures r.status == Done <==> key.Some?
    ensures key.None? ==> r == Effect(Open(s, name), Failed(InvalidStorageKey))
    ensures key.Some? ==>
      && ChangesOnly(s, r.state, name, key.value)
      && key.value in r.state.stores[name] && r.state.stores[name][key.value] == rec
  {
    var s1 := Open(s, name);
    match key
    case None => Effect(s1, Failed(InvalidStorageKey))
    case Some(k) => Effect(s1.(stores := s1.stores[name := s1.stores[name][k := rec]]), Done)
  }

  /** `createUser(key, {email, password}, storeName)`: destructuring a missing
      `data` throws before any storage call; otherwise the new record is
      upserted with `authenticated: true`. */
  function CreateUser(s: State, name: string, key: Option<string>, data: Option<Data>): (r: Effect)
    ensures r.status == Done <==> key.Some? && data.Some?
    ensures data.None? ==> r == Effect(s, Failed(MalformedRequest))
    ensures data.Some? && key.None? ==> r == Effect(Open(s, name), Failed(InvalidStorageKey))
    ensures r.status == Done ==>
      && ChangesOnly(s, r.state, name, key.value)
      && key.value in r.state.stores[name]
      && r.state.stores[name][key.value] == Record(data.value.email, data.value.password, true, map[])
  {
    match data
    case None => Effect(s, Failed(MalformedRequest))
    case Some(d) => Upsert(s, name, key, NewUser(d))
  }

  /** `signIn(key, {email, password}, storeName)`: succeeds exactly when a
      record exists at `key` whose email and password equal the given ones,
      and then sets only its flag; a missing record and wrong credentials fail
      alike and write nothing. */
  function SignIn(s: State, name: string, key: Option<string>, data: Option<Data>): (r: Effect)
    ensures r.status == Done <==>
      && data.Some? && key.Some?
      && key.value in StoreOf(s, name)
      && StoreOf(s, name)[key.value].email == data.value.email
      && StoreOf(s, name)[key.value].password == data.value.password
    ensures r.status == Done ==> OnlyFlagSet(s, r.state, name, key.value, true)
    ensures data.None? ==> r == Effect(s, Failed(MalformedRequest))
    ensures data.Some? && key.None? ==> r == Effect(Open(s, name), Failed(InvalidStorageKey))
    ensures data.Some? && key.Some? && r.status != Done ==> r == Effect(Open(s, name), Failed(InvalidCredentials))
  {
    match data
    case None => Effect(s, Failed(MalformedRequest))
    case Some(d) =>
      var s1 := Open(s, name);
      match key
      case None => Effect(s1, Failed(InvalidStorageKey))
      case Some(k) =>
        var store := s1.stores[name];
        if k in store && CredentialsMatch(store[k], d) then
          Effect(s1.(stores := s1.stores[name := store[k := store[k].(authenticated := true)]]), Done)
        else
          Effect(s1, Failed(InvalidCredentials))
  }

  /** `signOut(key, storeName)`: succeeds exactly when a record exists at
      `key`, with no credential check, and then clears only its flag. */
  function SignOut(s: State, name: string, key: Option<string>): (r: Effect)
    ensures r.status == Done <==> key.Some? && key.value in StoreOf(s, name)
    ensures r.status == Done ==> OnlyFlagSet(s, r.state, name, key.value, false)
    ensures key.None? ==> r == Effect(Open(s, name), Failed(InvalidStorageKey))
    ensures key.Some? && r.status != Done ==> r == Effect(Open(s, name), Failed(UserNotFound))
  {
    var s1 := Open(s, name);
    match key
    case None => Effect(s1, Failed(InvalidStorageKey))
    case Some(k) =>
      var store := s1.stores[name];
      if k in store then
        Effect(s1.(stores := s1.stores[name := store[k := store[k].(authenticated := false)]]), Done)
      else
        Effect(s1, Failed(UserNotFound))
  }

  /** `removeDataFromDB(key, storeName)`: deletes `key` from the developer's
      own store with no existence check, so it always succeeds. */
  function Remove(s: State, name: string, key: string): (r: Effect)
    ensures r.status == Done
    ensures ChangesOnly(s, r.state, name, key)
    ensures key !in r.state.stores[name]
  {
    var s1 := Open(s, name);
    Effect(s1.(stores := s1.stores[name := s1.stores[name] - {key}]), Done)
  }

  /** Opening a store that exists changes nothing, so every failing record
      operation on an existing store leaves the database as it was. */
  lemma OpenExisting(s: State, name: string)
    requires name in s.stores
    ensures Open(s, name) == s
  {
  }

  /** Round trip: a user created with some credentials can sign in with them,
      and is then authenticated. */
  lemma CreateThenSignIn(s: State, name: string, key: string, created: Data, given: Data)
    requires given.email == created.email && given.password == created.password
    ensures
      var s1 := CreateUser(s, name, Some(key), Some(created)).state;
      var r := SignIn(s1, name, Some(key), Some(given));
      && r.status == Done
      && r.state.stores[name][key] == NewUser(created)
  {
  }

  /** Signing out and back in with the stored credentials restores the
      database exactly when the record was signed in before. */
  lemma SignOutThenSignIn(s: State, name: string, key: string, data: Data)
    requires name in s.stores && key in s.stores[name]
    requires CredentialsMatch(s.stores[name][key], data)
    requires s.stores[name][key].authenticated
    ensures
      var s1 := SignOut(s, name, Some(key)).state;
      SignIn(s1, name, Some(key), Some(data)) == Effect(s, Done)
  {
    var store := s.stores[name];
    var s1 := SignOut(s, name, Some(key)).state;
    assert s1.stores[name] == store[key := store[key].(authenticated := false)];
    assert store[key := store[key].(authenticated := false)][key := store[key]] == store;
    assert s.stores[name := store] == s.stores;
  }

  /** Signing in twice with the same credentials is the same as once. */
  lemma SignInIdempotent(s: State, name: string, key: Option<string>, data: Option<Data>)
    requires SignIn(s, name, key, data).status == Done
    ensures
      var s1 := SignIn(s, name, key, data).state;
      SignIn(s1, name, key, data) == Effect(s1, Done)
  {
    var s1 := SignIn(s, name, key, data).state;
    var store := s1.stores[name];
    assert store[key.value := store[key.value].(authenticated := true)] == store;
    assert s1.stores[name := store] == s1.stores;
  }

  /** Signing out twice is the same as once. */
  lemma SignOutIdempotent(s: State, name: string, key: Option<string>)
    requires SignOut(s, name, key).status == Done
    ensures
      var s1 := SignOut(s, name, key).state;
      SignOut(s1, name, key) == Effect(s1, Done)
  {
    var s1 := SignOut(s, name, key).state;
    var store := s1.stores[name];
    assert store[key.value := store[key.value].(authenticated := false)] == store;
    assert s1.stores[name := store] == s1.stores;
  }

  /** Deletion of a key that is absent from an existing store is a no-op. */
  lemma RemoveAbsent(s: State, name: string, key: string)
    requires name in s.stores && key !in s.stores[name]
    ensures Remove(s, name, key) == Effect(s, Done)
  {
    assert s.stores[name] - {key} == s.stores[name];
    assert s.stores[name := s.stores[name]] == s.stores;
  }

  /** Every record operation keeps the registry invariant. */
  lemma RecordOpsKeepValid(s: State, name: string, key: Option<string>, data: Option<Data>)
    requires Valid(s)
    ensures Valid(CreateUser(s, name, key, data).state)
    ensures Valid(SignIn(s, name, key, data).state)
    ensures Valid(SignOut(s, name, key).state)
    ensures key.Some? ==> Valid(Remove(s, name, key.value).state)
  {
  }
}

=== FILE: scenarios.dfy ===
/** A concrete session against the handler: a developer registers, creates a
    user, signs in, fails a sign-in, and signs out. */
module Scenarios {
  import opened Types
  import opened Namespaces
  import opened Dispatch
  import Records

  const Empty := State(map[], map[])

  function Post(developerKey: Option<string>, urlKey: Option<string>, action: string, key: Option<string>, data: Option<Data>): Request {
    Request("/worker", "POST", urlKey, developerKey, Some(Body(Some(action), key, data)))
  }

  const DevData := Data(Some("abc"), None, None, map[])
  const Credentials := Data(None, Some("a@x.com"), Some("p"), map[])
  const WrongPassword := Data(None, Some("a@x.com"), Some("q"), map[])

  const SignedIn := Record(Some("a@x.com"), Some("p"), true, map[])
  const SignedOut := Record(Some("a@x.com"), Some("p"), false, map[])

  /** The database after SETDEV and CREATEUSER. */
  const Registered := State(
    map["developers/abc" := Registration(DevData, "dev_abc")],
    map["dev_abc" := map["u1" := SignedIn]])

  lemma AbcNames()
    ensures RegistryId("abc") == "developers/abc"
    ensures StoreNameFor(Some("abc")) == "dev_abc"
  {
    assert RegistryPrefix + "abc" == "developers/abc";
    assert StorePrefix + "abc" == "dev_abc";
  }

  lemma WorkerPathIntercepted()
    ensures Intercepts(Post(None, None, "SETDEV", None, None))
  {
    assert OccursAt("/worker", "/worker", 0);
  }

  /** Only POSTs are intercepted, to any path with `/worker` anywhere in it,
      compared case-sensitively. */
  lemma InterceptExamples()
    ensures Intercepts(Request("/api/worker/x", "POST", None, None, None))
    ensures !Intercepts(Request("/worker", "GET", None, None, None))
    ensures !Intercepts(Request("/Worker", "POST", None, None, None))
    ensures !Intercepts(Request("/work", "POST", None, None, None))
  {
    assert OccursAt("/api/worker/x", "/worker", 4);
    assert "/Worker"[1] != "/worker"[1];
  }

  /** SETDEV with no developer key creates `dev_abc`; CREATEUSER stores the
      user already signed in; SIGNIN with the stored credentials succeeds. */
  lemma RegisterCreateSignIn()
    ensures Handle(Empty, Post(None, None, "SETDEV", Some("developers/abc"), Some(DevData)))
      == Handled(State(map["developers/abc" := Registration(DevData, "dev_abc")], map["dev_abc" := map[]]), Response(Success, 200))
    ensures Handle(
        State(map["developers/abc" := Registration(DevData, "dev_abc")], map["dev_abc" := map[]]),
        Post(Some("abc"), None, "CREATEUSER", Some("u1"), Some(Credentials)))
      == Handled(Registered, Response(Success, 200))
    ensures Handle(Registered, Post(Some("abc"), None, "SIGNIN", Some("u1"), Some(Credentials)))
      == Handled(Registered, Response(Success, 200))
  {
    WorkerPathIntercepted();
    AbcNames();
    var s1 := State(map["developers/abc" := Registration(DevData, "dev_abc")], map["dev_abc" := map[]]);
    assert Register(Empty, Some("developers/abc"), Some(DevData)).state == s1;
    assert Validate(s1, Some("abc")) == Ok("dev_abc");
    assert Records.NewUser(Credentials) == SignedIn;
    assert Records.CreateUser(s1, "dev_abc", Some("u1"), Some(Credentials)).state == Registered;
    assert Validate(Registered, Some("abc")) == Ok("dev_abc");
    var store := Registered.stores["dev_abc"];
    assert store["u1" := store["u1"].(authenticated := true)] == store;
    assert Records.SignIn(Registered, "dev_abc", Some("u1"), Some(Credentials)) == Effect(Registered, Done);
  }

  /** SIGNIN with a wrong password is refused and writes nothing; SIGNOUT,
      reading its key from the URL, clears the flag. */
  lemma WrongPasswordThenSignOut()
    ensures Handle(Registered, Post(Some("abc"), None, "SIGNIN", Some("u1"), Some(WrongPassword)))
      == Handled(Registered, Response(Thrown(InvalidCredentials), 500))
    ensures Handle(Registered, Post(Some("abc"), Some("u1"), "SIGNOUT", None, None))
      == Handled(State(Registered.registry, map["dev_abc" := map["u1" := SignedOut]]), Response(Success, 200))
  {
    WorkerPathIntercepted();
    AbcNames();
    assert Validate(Registered, Some("abc")) == Ok("dev_abc");
    assert SignedIn.(authenticated := false) == SignedOut;
    var store := Registered.stores["dev_abc"];
    assert store["u1" := SignedOut] == map["u1" := SignedOut];
    assert Registered.stores["dev_abc" := map["u1" := SignedOut]] == map["dev_abc" := map["u1" := SignedOut]];
    assert Records.SignOut(Registered, "dev_abc", Some("u1")).state
      == State(Registered.registry, map["dev_abc" := map["u1" := SignedOut]]);
  }

  /** An unregistered developer key is refused before any store is opened. */
  lemma UnregisteredKeyRefused()
    ensures Handle(Registered, Post(Some("xyz"), Some("u1"), "GET", None, None))
      == Handled(Registered, Response(Thrown(InvalidDeveloperKey), 500))
  {
    WorkerPathIntercepted();
    assert RegistryId("xyz") != RegistryId("abc");
  }

  /** As written, the rejected sign-in never reaches the `catch` block: the
      handler's promise rejects and the page gets no response at all, where
      the corrected handler answers 500. */
  lemma WrongPasswordUnansweredAsWritten()
    ensures HandleAsWritten(Registered, Post(Some("abc"), None, "SIGNIN", Some("u1"), Some(WrongPassword)))
      == Unanswered(Registered, InvalidCredentials)
    ensures Handle(Registered, Post(Some("abc"), None, "SIGNIN", Some("u1"), Some(WrongPassword))).Handled?
  {
    WrongPasswordThenSignOut();
  }

  /** As written, a failed validation is still caught and answered with 500:
      the validation promise is awaited inside the `try`. */
  lemma ValidationFailureCaughtAsWritten()
    ensures HandleAsWritten(Registered, Post(Some("xyz"), Some("u1"), "GET", None, None))
      == Handled(Registered, Response(Thrown(InvalidDeveloperKey), 500))
  {
    UnregisteredKeyRefused();
  }
}

=== FILE: types.dfy ===
/** Values the service worker handles: request data, user records, the
    developer registry and the per-developer object stores.

    `None` is a field missing from the JSON body (JavaScript `undefined`), or
    an absent `Developer-Key` header or `key` URL parameter (`null`); a field
    the worker never interprets is kept in an opaque `rest` payload so that
    "every other field is unchanged" can be stated. */
module Types {

  datatype Option<+T> = None | Some(value: T)

  /** Success value or the error a promise of the worker rejects with. */
  datatype Result<+T> = Ok(value: T) | Err(reason: Failure)

  /** The fields of a JSON object the worker does not look at. */
  type Payload = map<string, string>

  /** The `data` object of a request body: the fields the worker reads
      (`developerKey` for SETDEV, `email` and `password` for CREATEUSER and
      SIGNIN) and everything else. */
  datatype Data = Data(
    developerKey: Option<string>,
    email: Option<string>,
    password: Option<string>,
    rest: Payload)

  /** The `data` part of an entry of `chatStore`: the developer's request data
      with `storeName` added by registration. */
  datatype Registration = Registration(data: Data, storeName: string)

  /** A user record in a developer's object store. */
  datatype Record = Record(
    email: Option<string>,
    password: Option<string>,
    authenticated: bool,
    rest: Payload)

  /** One object store: record key to record. */
  type Store = map<string, Record>

  /** The database: the fixed `chatStore` registry (entry id to registration)
      and the developer object stores by name. */
  datatype State = State(registry: map<string, Registration>, stores: map<string, Store>)

  /** Why an operation of the worker failed. As written, only
      MissingDeveloperKey, InvalidDeveloperKey and MalformedRequest reach the
      handler's `catch`; the others reject a promise the handler returns
      without `await`. */
  datatype Failure =
    | MissingDeveloperKey   // no or empty `Developer-Key` header
    | InvalidDeveloperKey   // no registry entry for the key
    | InvalidCredentials    // sign-in: no record, or email/password differ
    | UserNotFound          // sign-out: no record
    | InvalidStorageKey     // an object-store call given no key
    | MalformedRequest      // body not JSON, or a `data` object missing where it is destructured

  /** How a storage operation ended. */
  datatype Status = Done | Failed(reason: Failure)

  /** The database after an operation and how the operation ended. */
  datatype Effect = Effect(state: State, status: Status)

  /** JavaScript truthiness of an optional string: present and not empty. */
  predicate Truthy(v: Option<string>) {
    v.Some? && v.value != ""
  }
}
